=== FILE: README.md ===
# Account service: a Dafny model

This project models the account-management core of a small account microservice. The service registers accounts, looks them up and lists them. It lets a signed-in caller change their password, and it answers a "verify account" request from a companion authentication service.

The database table becomes an immutable `Store`. A `Store` is the sequence of `Account` rows in insertion order plus the next value of the id sequence. Every operation is a pure transition. It returns a `Result`: either the new store or value, or a `Failure`. The failures are:

- `Abort(status, detail)`: the service's own HTTP error.
- `MissingKey(k)`: a Python `KeyError`.
- `NoRow`: reading a column of a row the query did not return, which is an internal error.
- `UniqueViolation(login)`: the database's unique-login constraint rejecting an insert.

A failed call returns no store. The store after a failed call is therefore the store before it.

Modules follow the source files:

- `Errors` (`errors.dfy`): `Option`, `Result`, `Failure`, and JSON values as `map<string, Value>`.
- `Utils` (`utils.dfy`): the salted password hash and its verification, `CurrentUser`, `JsonifyInfo`, and `GetCurrentUser`. `GetCurrentUser` rebuilds the caller from the five trusted identity headers and includes a decimal parser for the account-id header.
- `Database` (`database.dfy`, models app/database.py): the `Account` row and the table invariant `Valid`. `Valid` means unique login, unique id, and every id drawn from the sequence. This module also holds the single-row select `First`, `Insert` with its unique-login constraint and `role` default, and the `RecreateTables` reset.
- `Logic` (`logic.dfy`): `RegisterAccount`, `Me`, `GetAccountInfo`, `GetAllAccounts`, `ChangePassword` and `VerifyAccount`.
- `LogicProperties` (`logic_properties.dfy`): lemmas that relate operations. They cover uniqueness, register-then-verify, change-then-verify, and reset-then-verify.

Hashing is modelled like bcrypt. A `Hashed` value embeds its salt, and `Verify` re-hashes the candidate with that salt and compares. The salt the library draws at random is an input, and so is the current time. `VerifyHash` proves that a hash verifies against its own password. `VerifyOnlyOwnPassword` proves that it verifies against no other password.

The `CurrentUser` datatype constructor takes its fields in the source constructor's parameter order: account id, role, session id, client, login time. Each argument lands in the field of the same name.

The session-invalidation call in `change_password` is an input `SessionReply`: a status, plus the `detail` field of the reply body when there is one. `ChangeOutcome.sent` records whether the invalidation request was sent and with what body.

`get_all_accounts` considers pagination only when `offset` and `limit` are both truthy, meaning present and non-zero (app/logic.py:61). So `offset = 0, limit = 0` is not a 422: it returns the whole unpaged listing. An offset of 0 disables paging for any limit. `GetAllAccounts` states both facts in its contract.

## Model

| member | source | states |
|---|---|---|
| Utils.VerifyHash | app/utils.py:9-14 | a hash made from a password verifies against that password |
| Utils.VerifyOnlyOwnPassword | app/utils.py:9-14 | a hash verifies against a candidate exactly when the candidate is the password it was made from |
| Utils.JsonifyInfo | app/utils.py:25-35 | the profile has exactly eight keys; session id, role, account id, client and login time come from the caller, login, name and register time from the arguments |
| Utils.ParseInt | app/utils.py:40 | the header parses exactly when it is an optionally signed run of digits; the sign fixes the sign of the value |
| Utils.ParseFormatInt | app/utils.py:40 | every integer's decimal spelling parses back to that integer |
| Utils.ParsePadded | app/utils.py:40 | every optionally signed literal, whatever its leading zeros, parses to its value: `+7` and `007` read as 7, `-007` as -7 |
| Utils.LeadingZerosValue | app/utils.py:40 | leading zeros do not change the value of a digit string |
| Utils.GetCurrentUser | app/utils.py:38-52 | 401 for a missing or non-integer account id; a lookup error for the first missing of session id, role, login time, client, in that order; 401 for a zero id or an empty value; otherwise a caller whose five fields are the parsed headers, and success exactly when the headers identify a caller |
| Utils.GetCurrentUserRoundTrip | app/utils.py:38-52 | every caller with a non-zero id and non-empty fields is rebuilt exactly from the headers a gateway sends for it |
| Database.First | app/logic.py:41-43 | a select-first returns a row of the table that matches the key, and returns nothing exactly when no row matches |
| Database.FirstOfUnique | app/database.py:16-18 | in a valid table, a select-first by id or login returns the one matching row |
| Database.Insert | app/database.py:15-22 | an insert fails with a unique violation exactly when the login is taken; otherwise it appends one row with the next id, the given role or the default `user`, and the given login, name, hash and time, keeps every old row and advances the id sequence |
| Database.InsertPreservesValid | app/database.py:16-18 | an accepted insert keeps logins and ids unique and ids drawn from the sequence |
| Database.RecreateTables | app/database.py:34-54 | after a successful drop, the table holds exactly one valid row: admin role, configured login as login and name, hash of the admin password, id 1, and the id sequence restarts at 2. A failed drop is swallowed: the same admin row, with the surviving table's next id, is then appended to that table, or rejected if its login is taken |
| Logic.PublicInfo | app/logic.py:48-53 | a public profile has exactly the keys login, role, name, register_time (never password), holding the row's values |
| Logic.RegisterAccount | app/logic.py:15-27 | a taken login is a 409; a fresh one appends exactly one `user` row with the given login, name, time and a hash that verifies the password, keeps every old row and preserves the table invariant |
| Logic.Me | app/logic.py:30-36 | no row with the caller's id is an internal error; otherwise the result is the caller's session fields merged with that row's login, name and register time |
| Logic.GetAccountInfo | app/logic.py:39-53 | an absent login is a 404; otherwise the public profile of the row with that login, which never includes the password |
| Logic.FilterRole | app/logic.py:59-60 | the filtered rows are the table's rows whose role matches, each kept as many times as the table holds it, and nothing else |
| Logic.SortNewestFirst | app/logic.py:58 | the ordering is a permutation of its input with non-increasing registration times |
| Logic.Page | app/logic.py:61-65 | a page is exactly rows `offset .. offset + limit` of the list clipped to its end: it has `min(limit, length - offset)` rows, row `i` of the page is row `offset + i` of the list, and an offset past the end gives nothing |
| Logic.CollectRows | app/logic.py:69-79 | the count equals the number of rows and entries, and entry `i` is the public profile of row `i` |
| Logic.GetAllAccounts | app/logic.py:56-79 | 422 exactly when offset and limit are both truthy and the offset is negative or the limit below 1. Without both truthy, the listing is every selected row, so offset 0 disables paging. Otherwise it is the page of the ordered rows. The count equals the number of entries; no entry has a password; entries carry the filtered role and are newest first |
| Logic.OrderedSelects | app/logic.py:58-60 | the ordered listing is newest first and holds every row whose role the filter admits, as many times as the table does, and no other row; with a role other than `user` or `admin` that is a permutation of the whole table |
| Logic.PageKeepsOrder | app/logic.py:61-65 | a page of a newest-first list is newest first and holds only rows of the list |
| Logic.ProfilesDescribe | app/logic.py:69-79 | profiles of selected newest-first rows have no password, carry the filtered role and have non-increasing register times |
| Logic.SetPassword | app/logic.py:103-104 | the update replaces the password of the rows with the caller's id and leaves every other field and row unchanged |
| Logic.ChangePassword | app/logic.py:82-104 | a missing row is an internal error; a wrong old password is a 422 even when old equals new; a verifying old password equal to the new one is a 409; neither sends the invalidation request. Past the guards, the request for the caller's account and session is sent and a non-200 status is passed through with its detail. Only on 200 does the caller's hash become the new password's, with every other field and row untouched |
| Logic.VerifiedInfo | app/logic.py:123-126 | the answer has exactly the keys account_id and role, holding the row's id and role |
| Logic.VerifyAccount | app/logic.py:107-126 | lookup by id when the id is truthy, else by login. No matching row (or neither identifier) is a 404, a non-verifying password a 422; otherwise the matching row's id and role |
| LogicProperties.CountLoginAtMostOne | app/database.py:18 | in a table with unique logins, a login occurs in at most one row, and in exactly one when present |
| LogicProperties.RegisterTwiceConflicts | app/logic.py:17-27 | registering a login twice: the second call is a 409 and exactly one row holds the login |
| LogicProperties.ChangePasswordPreservesValid | app/logic.py:103-104 | a successful password change keeps the table invariant |
| LogicProperties.RegisterThenVerify | app/logic.py:24-26 | a freshly registered login verifies with its password, by login (with a falsy id) and by its new id, answering that id and role `user` |
| LogicProperties.ChangedRowHoldsNewHash | app/logic.py:103-104 | after a successful change the caller's row, selected by id, holds the hash of the new password |
| LogicProperties.ChangePasswordThenVerify | app/logic.py:88-104 | after a successful change the new password verifies for the caller's id and the old one is a 422 |
| LogicProperties.RecreateThenVerifyAdmin | app/database.py:45-53 | after a reset with a successful drop, the store has one row and the admin credentials verify as id 1 with role `admin` |
| LogicProperties.RegisterThenMe | app/logic.py:24-36 | a freshly registered caller's profile merges their session fields with the login, name and registration time they registered with |
| LogicProperties.RegisterThenGetInfo | app/logic.py:24-53 | a registered account's public profile is its login, role `user`, its name and registration time |

## Left out

- The async database engine, transactions and the connectivity probe `check_database` are left out. The store is an in-memory value, and every operation is one sequential transition.
- Concurrency is left out. This includes the check-then-insert race in `register_account`. It also includes the window in which sessions are already invalidated but the password is not yet updated. The model shows only the order of the steps.
- In `recreate_tables`, PostgreSQL aborts the enclosing transaction after a failed statement. The model does not represent that. After a failed drop it follows the code's control flow, which goes on to create and seed.
- The HTTP client of the session-invalidation call is left out; its reply is an input. A reply body that is not JSON is treated like one without a `detail` field.
- bcrypt internals are left out. The model's hash is collision-free for a fixed salt. Real bcrypt ignores password bytes beyond the 72nd, so two long passwords that share that prefix verify against each other there, and `VerifyOnlyOwnPassword` does not hold for them.
- Ids are unbounded integers. The `id` column is a 32-bit PostgreSQL `Integer` (app/database.py:16), so the real id sequence stops at 2^31-1 and an account-id header outside that range cannot match a stored id; the model does not represent that width for `Account.id`, `Store.nextId` or the parsed header id.
- The clock (`datetime.utcnow()`) and the salt's randomness are inputs.
- Utils.ParseInt: accepts only an optional sign followed by ASCII digits. Python's `int()` also accepts surrounding whitespace, `_` digit separators and non-ASCII digits, so the model rejects some headers the source accepts.
- Header names are matched exactly. The web framework matches header names case-insensitively, and that is not modelled.
- The tie order of rows with equal registration times is left open by the database. The model fixes one order: among equal times, earlier table rows come first. `SortNewestFirst` and `OrderedSelects` state only non-increasing times and the permutation, but `GetAllAccounts` is stated through the model's one order, so where a page boundary falls among tied rows it promises more than the database does.
- The schema of the verify request is not part of this model. The id and login are taken as optional. A request with neither compares `login` with NULL in the query, which matches no row.
- The routing layer and its response envelope are left out: `app/router.py` is not part of this model. As written, its handlers call a nonexistent function, use an undefined type name, and route `/all` behind `/{login}`.
- Console printing in `recreate_tables` is left out.

=== FILE: database.dfy ===
/** The `accounts` table and the development reset (app/database.py).

    The database is an immutable value: a sequence of rows in insertion order
    plus the next value of the id sequence. */
module Database {
  import opened Errors
  import opened Utils

  const UserRole := "user"
  const AdminRole := "admin"

  /** The value the `role` column takes when an insert leaves it out. */
  const DefaultRole := UserRole

  /** One row of `accounts`. Every column is non-null, so every field is
      always present; `registerTime` is a timestamp in whole time units. */
  datatype Account = Account(
    id: int,
    role: string,
    login: string,
    password: Hashed,
    name: string,
    registerTime: int)

  /** The table: rows in insertion order and the id the next insert receives. */
  datatype Store = Store(accounts: seq<Account>, nextId: int)

  /** A freshly created, empty table: its id sequence starts at 1. */
  const EmptyStore := Store([], 1)

  predicate LoginsUnique(accounts: seq<Account>)
  {
    forall i, j :: 0 <= i < j < |accounts| ==> accounts[i].login != accounts[j].login
  }

  predicate IdsUnique(accounts: seq<Account>)
  {
    forall i, j :: 0 <= i < j < |accounts| ==> accounts[i].id != accounts[j].id
  }

  /** The table invariant: `login` is unique (the column's constraint), `id`
      is unique (the primary key), and every id was drawn from the sequence. */
  predicate Valid(s: Store)
  {
    && LoginsUnique(s.accounts)
    && IdsUnique(s.accounts)
    && s.nextId >= 1
    && forall i :: 0 <= i < |s.accounts| ==> 1 <= s.accounts[i].id < s.nextId
  }

  predicate HasLogin(s: Store, login: string)
  {
    exists i :: 0 <= i < |s.accounts| && s.accounts[i].login == login
  }

  predicate HasId(s: Store, id: int)
  {
    exists i :: 0 <= i < |s.accounts| && s.accounts[i].id == id
  }

  // ---------------------------------------------------------------------------
  // Single-row selects
  // ---------------------------------------------------------------------------

  /** The column a `select ... where column == value` compares. */
  datatype Key = ById(id: int) | ByLogin(login: string)

  predicate Matches(a: Account, key: Key)
  {
    match key
    case ById(id) => a.id == id
    case ByLogin(login) => a.login == login
  }

  /** `select(accounts).where(...).first()`: the first matching row, if any. */
  function First(accounts: seq<Account>, key: Key): (r: Option<Account>)
    ensures r.Some? ==> exists i :: 0 <= i < |accounts| && accounts[i] == r.value && Matches(r.value, key)
    ensures r.None? <==> forall i :: 0 <= i < |accounts| ==> !Matches(accounts[i], key)
  {
    if accounts == [] then None
    else if Matches(accounts[0], key) then Some(accounts[0])
    else
      var r := First(accounts[1..], key);
      assert forall i :: 1 <= i < |accounts| ==> accounts[i] == accounts[1..][i - 1];
      r
  }

  /** In a valid table a key matches at most one row, so `first()` returns
      that row whatever the row order. */
  lemma FirstOfUnique(s: Store, key: Key, a: Account)
    requires Valid(s)
    requires a in s.accounts && Matches(a, key)
    ensures First(s.accounts, key) == Some(a)
  {
  }

  // ---------------------------------------------------------------------------
  // Insert
  // ---------------------------------------------------------------------------

  /** `accounts.insert().values(...)`: a new row with the next id, or a
      unique-constraint violation when the login is taken. A role left out
      takes the column default. */
  function Insert(s: Store, role: Option<string>, login: string, name: string,
                  password: Hashed, registerTime: int): (r: Result<Store>)
    ensures r.Err? <==> HasLogin(s, login)
    ensures r.Err? ==> r.failure == UniqueViolation(login)
    ensures r.Ok? ==>
      && |r.value.accounts| == |s.accounts| + 1
      && r.value.accounts[..|s.accounts|] == s.accounts
      && r.value.accounts[|s.accounts|] ==
           Account(s.nextId, if role.Some? then role.value else DefaultRole, login, password, name, registerTime)
      && r.value.nextId == s.nextId + 1
  {
    if HasLogin(s, login) then Err(UniqueViolation(login))
    else
      var row := Account(s.nextId, if role.Some? then role.value else DefaultRole,
                         login, password, name, registerTime);
      Ok(Store(s.accounts + [row], s.nextId + 1))
  }

  /** An accepted insert keeps the table invariant and touches no old row. */
  lemma InsertPreservesValid(s: Store, role: Option<string>, login: string, name: string,
                             password: Hashed, registerTime: int)
    requires Valid(s)
    requires Insert(s, role, login, name, password, registerTime).Ok?
    ensures Valid(Insert(s, role, login, name, password, registerTime).value)
  {
  }

  // ---------------------------------------------------------------------------
  // Development reset
  // ---------------------------------------------------------------------------

  /** `recreate_tables`: drop every table, create them again and seed one
      admin account whose login and name are the configured admin login.
      `dropSucceeded` is the outcome of the drop: a failed drop is swallowed,
      the existing table then survives (creation skips tables that exist) and
      the admin row is inserted into it. */
  function RecreateTables(prior: Store, dropSucceeded: bool, adminLogin: string,
                          adminPassword: string, salt: Salt, now: int): (r: Result<Store>)
    ensures dropSucceeded ==>
      r == Ok(Store([Account(1, AdminRole, adminLogin, Hash(adminPassword, salt), adminLogin, now)], 2))
    ensures dropSucceeded ==> Valid(r.value)
    ensures !dropSucceeded ==> (r.Err? <==> HasLogin(prior, adminLogin))
    ensures !dropSucceeded && r.Ok? ==>
      && |r.value.accounts| == |prior.accounts| + 1
      && r.value.accounts[..|prior.accounts|] == prior.accounts
      && r.value.accounts[|prior.accounts|] ==
           Account(prior.nextId, AdminRole, adminLogin, Hash(adminPassword, salt), adminLogin, now)
      && r.value.nextId == prior.nextId + 1
    ensures !dropSucceeded && Valid(prior) && r.Ok? ==> Valid(r.value)
  {
    var base := if dropSucceeded then EmptyStore else prior;
    var r := Insert(base, Some(AdminRole), adminLogin, adminLogin, Hash(adminPassword, salt), now);
    if r.Ok? && Valid(base) then
      InsertPreservesValid(base, Some(AdminRole), adminLogin, adminLogin, Hash(adminPassword, salt), now);
      r
    else r
  }
}

=== FILE: errors.dfy ===
/** Shared result and value types of the account service model.

    Python's exceptions become the `Failure` datatype, `None`-able values become
    `Option`, and the JSON dictionaries the service returns become `Json` maps. */
module Errors {

  datatype Option<+T> = None | Some(value: T)

  /** Every way an operation can end other than normally. */
  datatype Failure =
      /** The service's own `HTTPabort(status, detail)`. */
    | Abort(status: int, detail: string)
      /** A `KeyError` from indexing a mapping with a key it lacks. */
    | MissingKey(key: string)
      /** Reading a column of a row the query did not return (an unhandled
          `TypeError`/`AttributeError`, i.e. an internal server error). */
    | NoRow
      /** The database rejecting an insert that breaks the unique-login constraint. */
    | UniqueViolation(login: string)

  datatype Result<+T> = Ok(value: T) | Err(failure: Failure)

  /** A JSON scalar: timestamps and ids are integers, everything else a string. */
  datatype Value = Str(s: string) | Int(i: int)

  /** A JSON object as returned by the service. */
  type Json = map<string, Value>
}

=== FILE: logic.dfy ===
/** The account operations (app/logic.py) as transitions on a `Store`.

    An operation that changes the table returns the new table; one that fails
    returns a `Failure` and no table, so the table after a failed call is the
    table before it. */
module Logic {
  import opened Errors
  import opened Utils
  import opened Database

  const LoginTakenDetail := "Account with this login already exists"
  const NoSuchLoginDetail := "No account with this login"
  const BadPageDetail := "Offset or limit has wrong values"
  const IncorrectPasswordDetail := "Incorrect password"
  const SamePasswordDetail := "Old and new passwords are equal"
  const AccountNotFoundDetail := "Account not found"

  /** Python truthiness of an optional integer: present and non-zero. */
  predicate Truthy(x: Option<int>)
  {
    x.Some? && x.value != 0
  }

  /** The keys of an account's public profile; the password is not one of them. */
  const PublicKeys: set<string> := {"login", "role", "name", "register_time"}

  /** The public profile of a row, as both the lookup and the listing build it. */
  function PublicInfo(a: Account): (r: Json)
    ensures r.Keys == PublicKeys && "password" !in r
    ensures r["login"] == Str(a.login) && r["role"] == Str(a.role)
    ensures r["name"] == Str(a.name) && r["register_time"] == Int(a.registerTime)
  {
    map["login" := Str(a.login), "role" := Str(a.role), "name" := Str(a.name),
        "register_time" := Int(a.registerTime)]
  }

  // ---------------------------------------------------------------------------
  // register_account
  // ---------------------------------------------------------------------------

  /** The row `register_account` adds for a fresh login. */
  function NewUser(s: Store, login: string, password: string, name: string, salt: Salt, now: int): Account
  {
    Account(s.nextId, UserRole, login, Hash(password, salt), name, now)
  }

  /** Register a `user` account: a taken login is a 409, otherwise exactly one
      row is appended and every existing row is kept. */
  function RegisterAccount(s: Store, login: string, password: string, name: string,
                           salt: Salt, now: int): (r: Result<Store>)
    ensures HasLogin(s, login) ==> r == Err(Abort(409, LoginTakenDetail))
    ensures !HasLogin(s, login) ==> r.Ok?
    ensures r.Ok? ==>
      && |r.value.accounts| == |s.accounts| + 1
      && r.value.accounts[..|s.accounts|] == s.accounts
      && r.value.accounts[|s.accounts|] == NewUser(s, login, password, name, salt, now)
    ensures r.Ok? ==> Verify(password, r.value.accounts[|s.accounts|].password)
    ensures Valid(s) && r.Ok? ==> Valid(r.value)
  {
    if First(s.accounts, ByLogin(login)).Some? then Err(Abort(409, LoginTakenDetail))
    else
      var r := Insert(s, Some(UserRole), login, name, Hash(password, salt), now);
      if Valid(s) then
        InsertPreservesValid(s, Some(UserRole), login, name, Hash(password, salt), now);
        r
      else r
  }

  // ---------------------------------------------------------------------------
  // me
  // ---------------------------------------------------------------------------

  /** The caller's profile: session fields from the request, `login`, `name`
      and `register_time` from the caller's row. A caller whose row is gone
      makes the source index a missing row. */
  function Me(s: Store, user: CurrentUser): (r: Result<Json>)
    ensures !HasId(s, user.accountId) ==> r == Err(NoRow)
    ensures forall a :: a in s.accounts && a.id == user.accountId && Valid(s) ==>
      r == Ok(JsonifyInfo(user, a.login, a.name, a.registerTime))
    ensures r.Ok? ==> r.value.Keys == ProfileKeys
  {
    match First(s.accounts, ById(user.accountId))
    case None => Err(NoRow)
    case Some(a) =>
      assert forall b :: b in s.accounts && b.id == user.accountId && Valid(s) ==> a == b by {
        forall b | b in s.accounts && b.id == user.accountId && Valid(s) ensures a == b {
          FirstOfUnique(s, ById(user.accountId), b);
        }
      }
      Ok(JsonifyInfo(user, a.login, a.name, a.registerTime))
  }

  // ---------------------------------------------------------------------------
  // get_account_info
  // ---------------------------------------------------------------------------

  /** The public profile of the account with `login`, or 404. */
  function GetAccountInfo(s: Store, login: string): (r: Result<Json>)
    ensures !HasLogin(s, login) ==> r == Err(Abort(404, NoSuchLoginDetail))
    ensures forall a :: a in s.accounts && a.login == login && Valid(s) ==> r == Ok(PublicInfo(a))
    ensures r.Ok? ==> r.value.Keys == PublicKeys && "password" !in r.value
    ensures r.Ok? ==> exists a :: a in s.accounts && a.login == login && r.value == PublicInfo(a)
  {
    match First(s.accounts, ByLogin(login))
    case None => Err(Abort(404, NoSuchLoginDetail))
    case Some(a) =>
      assert forall b :: b in s.accounts && b.login == login && Valid(s) ==> a == b by {
        forall b | b in s.accounts && b.login == login && Valid(s) ensures a == b {
          FirstOfUnique(s, ByLogin(login), b);
        }
      }
      Ok(PublicInfo(a))
  }

  // ---------------------------------------------------------------------------
  // get_all_accounts
  // ---------------------------------------------------------------------------

  /** The role filter is applied only for the two known roles. */
  predicate FiltersRole(role: Option<string>)
  {
    role == Some(UserRole) || role == Some(AdminRole)
  }

  /** A row the listing selects. */
  predicate Selected(a: Account, role: Option<string>)
  {
    FiltersRole(role) ==> a.role == role.value
  }

  function FilterRole(accounts: seq<Account>, role: Option<string>): (r: seq<Account>)
    ensures forall a :: a in r <==> a in accounts && Selected(a, role)
    ensures forall a :: multiset(r)[a] == if Selected(a, role) then multiset(accounts)[a] else 0
  {
    if accounts == [] then []
    else
      var rest := FilterRole(accounts[1..], role);
      assert accounts == [accounts[0]] + accounts[1..];
      assert multiset(accounts) == multiset{accounts[0]} + multiset(accounts[1..]);
      if Selected(accounts[0], role) then
        assert multiset([accounts[0]] + rest) == multiset{accounts[0]} + multiset(rest);
        [accounts[0]] + rest
      else rest
  }

  /** Ordered by registration time, latest first. */
  predicate NewestFirst(accounts: seq<Account>)
  {
    forall i, j :: 0 <= i < j < |accounts| ==> accounts[i].registerTime >= accounts[j].registerTime
  }

  /** Prepending a row no older than any other keeps newest-first order. */
  lemma PrependNewest(x: Account, rest: seq<Account>)
    requires NewestFirst(rest)
    requires forall b :: b in rest ==> b.registerTime <= x.registerTime
    ensures NewestFirst([x] + rest)
  {
  }

  /** Whatever the tail of a newest-first list is rearranged into, together
      with an older row, nothing in it is newer than the head. */
  lemma NoneNewerThanHead(a: Account, sorted: seq<Account>, rest: seq<Account>)
    requires NewestFirst(sorted) && sorted != [] && a.registerTime < sorted[0].registerTime
    requires multiset(rest) == multiset(sorted[1..]) + multiset{a}
    ensures forall b :: b in rest ==> b.registerTime <= sorted[0].registerTime
  {
    forall b | b in rest ensures b.registerTime <= sorted[0].registerTime {
      assert b in multiset(rest);
      if b != a {
        assert b in multiset(sorted[1..]);
      }
    }
  }

  function InsertByTime(a: Account, sorted: seq<Account>): (r: seq<Account>)
    requires NewestFirst(sorted)
    ensures NewestFirst(r)
    ensures multiset(r) == multiset(sorted) + multiset{a}
  {
    if sorted == [] || a.registerTime >= sorted[0].registerTime then
      PrependNewest(a, sorted);
      [a] + sorted
    else
      var rest := InsertByTime(a, sorted[1..]);
      assert sorted == [sorted[0]] + sorted[1..];
      NoneNewerThanHead(a, sorted, rest);
      PrependNewest(sorted[0], rest);
      [sorted[0]] + rest
  }

  /** `order_by(desc(register_time))`. The database leaves the order of equal
      timestamps open; this is one admissible order. */
  function SortNewestFirst(accounts: seq<Account>): (r: seq<Account>)
    ensures NewestFirst(r)
    ensures multiset(r) == multiset(accounts)
  {
    if accounts == [] then []
    else
      assert accounts == [accounts[0]] + accounts[1..];
      InsertByTime(accounts[0], SortNewestFirst(accounts[1..]))
  }

  /** The rows the listing query returns before any pagination. */
  function Ordered(s: Store, role: Option<string>): seq<Account>
  {
    SortNewestFirst(if FiltersRole(role) then FilterRole(s.accounts, role) else s.accounts)
  }

  /** Pagination is considered only when both offset and limit are truthy. */
  predicate Paginates(offset: Option<int>, limit: Option<int>)
  {
    Truthy(offset) && Truthy(limit)
  }

  /** `limit(limit).offset(offset)`: rows `offset .. offset + limit`, clipped
      to the rows that exist. */
  function Page(rows: seq<Account>, offset: nat, limit: nat): (r: seq<Account>)
    ensures |r| == if offset >= |rows| then 0 else if |rows| - offset < limit then |rows| - offset else limit
    ensures forall i :: 0 <= i < |r| ==> offset + i < |rows| && r[i] == rows[offset + i]
  {
    var lo := if offset < |rows| then offset else |rows|;
    var hi := if offset + limit < |rows| then offset + limit else |rows|;
    rows[lo..hi]
  }

  /** The public profile of each row, in order. */
  function Profiles(rows: seq<Account>): (r: seq<Json>)
  {
    seq(|rows|, i requires 0 <= i < |rows| => PublicInfo(rows[i]))
  }

  /** The listing returned: the row count and the public profile of each row. */
  datatype Listing = Listing(count: int, accounts: seq<Json>)

  /** The loop at the end of `get_all_accounts`: count the rows and collect
      the public profile of each, in order. */
  method CollectRows(rows: seq<Account>) returns (count: int, entries: seq<Json>)
    ensures count == |entries| == |rows|
    ensures forall i :: 0 <= i < |rows| ==> entries[i] == PublicInfo(rows[i])
  {
    entries := [];
    count := 0;
    for k := 0 to |rows|
      invariant count == |entries| == k
      invariant forall i :: 0 <= i < k ==> entries[i] == PublicInfo(rows[i])
    {
      count := count + 1;
      entries := entries + [PublicInfo(rows[k])];
    }
  }

  /** List accounts newest first, optionally of one role, optionally paged. */
  method GetAllAccounts(s: Store, offset: Option<int>, limit: Option<int>, role: Option<string>)
    returns (r: Result<Listing>)
    // bad bounds are rejected only when pagination is considered at all
    ensures r.Err? <==> Paginates(offset, limit) && (offset.value < 0 || limit.value < 1)
    ensures r.Err? ==> r.failure == Abort(422, BadPageDetail)
    // a zero or missing offset or limit switches pagination off
    ensures !Paginates(offset, limit) ==>
      r == Ok(Listing(|Ordered(s, role)|, Profiles(Ordered(s, role))))
    ensures r.Ok? && Paginates(offset, limit) ==>
      r.value.accounts == Profiles(Page(Ordered(s, role), offset.value, limit.value))
    ensures r.Ok? ==> r.value.count == |r.value.accounts|
    ensures r.Ok? ==> forall e :: e in r.value.accounts ==> e.Keys == PublicKeys && "password" !in e
    ensures r.Ok? && FiltersRole(role) ==>
      forall e :: e in r.value.accounts ==> e["role"] == Str(role.value)
    ensures r.Ok? ==> forall i, j :: 0 <= i < j < |r.value.accounts| ==>
      r.value.accounts[i]["register_time"].Int? && r.value.accounts[j]["register_time"].Int? &&
      r.value.accounts[i]["register_time"].i >= r.value.accounts[j]["register_time"].i
  {
    var ordered := Ordered(s, role);
    OrderedSelects(s, role);
    var rows := ordered;
    if Paginates(offset, limit) {
      if offset.value < 0 || limit.value < 1 {
        return Err(Abort(422, BadPageDetail));
      }
      rows := Page(ordered, offset.value, limit.value);
      PageKeepsOrder(ordered, offset.value, limit.value);
    }
    var count, entries := CollectRows(rows);
    assert entries == Profiles(rows);
    ProfilesDescribe(rows, role);
    r := Ok(Listing(count, entries));
  }

  /** A page of a newest-first list is a newest-first list of its rows. */
  lemma PageKeepsOrder(rows: seq<Account>, offset: nat, limit: nat)
    requires NewestFirst(rows)
    ensures NewestFirst(Page(rows, offset, limit))
    ensures forall a :: a in Page(rows, offset, limit) ==> a in rows
  {
  }

  /** The profiles of selected, newest-first rows show no password, carry the
      requested role and are newest first. */
  lemma ProfilesDescribe(rows: seq<Account>, role: Option<string>)
    requires NewestFirst(rows)
    requires forall a :: a in rows ==> Selected(a, role)
    ensures forall e :: e in Profiles(rows) ==> e.Keys == PublicKeys && "password" !in e
    ensures FiltersRole(role) ==> forall e :: e in Profiles(rows) ==> e["role"] == Str(role.value)
    ensures forall i, j :: 0 <= i < j < |Profiles(rows)| ==>
      Profiles(rows)[i]["register_time"].Int? && Profiles(rows)[j]["register_time"].Int? &&
      Profiles(rows)[i]["register_time"].i >= Profiles(rows)[j]["register_time"].i
  {
    var p := Profiles(rows);
    forall e | e in p ensures e.Keys == PublicKeys && "password" !in e
      && (FiltersRole(role) ==> e["role"] == Str(role.value))
    {
      var i :| 0 <= i < |p| && p[i] == e;
      assert rows[i] in rows;
    }
  }

  /** The listing before paging is exactly the selected rows, newest first:
      a permutation of the rows whose role the filter admits, every copy kept
      (the whole table when the role filters nothing). */
  lemma OrderedSelects(s: Store, role: Option<string>)
    ensures NewestFirst(Ordered(s, role))
    ensures forall a :: a in Ordered(s, role) <==> a in s.accounts && Selected(a, role)
    ensures forall a :: multiset(Ordered(s, role))[a] == if Selected(a, role) then multiset(s.accounts)[a] else 0
  {
    var selected := if FiltersRole(role) then FilterRole(s.accounts, role) else s.accounts;
    assert multiset(Ordered(s, role)) == multiset(selected);
    forall a ensures a in Ordered(s, role) <==> a in selected {
      assert a in Ordered(s, role) <==> a in multiset(Ordered(s, role));
    }
  }

  // ---------------------------------------------------------------------------
  // change_password
  // ---------------------------------------------------------------------------

  /** The body of the session-invalidation request. */
  datatype InvalidateRequest = InvalidateRequest(accountId: int, sessionId: string)

  /** The session service's answer: its status, and the `detail` field of its
      JSON body when there is one. */
  datatype SessionReply = SessionReply(status: int, detail: Option<string>)

  /** What a password change did: the invalidation request it sent, if any,
      and its result. */
  datatype ChangeOutcome = ChangeOutcome(sent: Option<InvalidateRequest>, result: Result<Store>)

  /** `accounts.update().where(id == accountId).values(password=...)`. */
  function SetPassword(s: Store, accountId: int, password: Hashed): (r: Store)
    ensures r.nextId == s.nextId && |r.accounts| == |s.accounts|
    ensures forall i :: 0 <= i < |s.accounts| && s.accounts[i].id != accountId ==>
      r.accounts[i] == s.accounts[i]
    ensures forall i :: 0 <= i < |s.accounts| && s.accounts[i].id == accountId ==>
      r.accounts[i] == s.accounts[i].(password := password)
  {
    Store(seq(|s.accounts|, i requires 0 <= i < |s.accounts| =>
            if s.accounts[i].id == accountId then s.accounts[i].(password := password) else s.accounts[i]),
          s.nextId)
  }

  /** Change the caller's password. The guards run in a fixed order: the old
      password must verify (422), then differ from the new one (409); only
      then is the session service told to drop the caller's sessions, and a
      non-200 answer is passed through. Only on 200 is the hash replaced. */
  function ChangePassword(s: Store, user: CurrentUser, oldPassword: string, newPassword: string,
                          reply: SessionReply, salt: Salt): (o: ChangeOutcome)
    ensures !HasId(s, user.accountId) ==> o == ChangeOutcome(None, Err(NoRow))
    ensures forall a :: a in s.accounts && a.id == user.accountId && Valid(s) ==>
      && (!Verify(oldPassword, a.password) ==>
            o == ChangeOutcome(None, Err(Abort(422, IncorrectPasswordDetail))))
      && (Verify(oldPassword, a.password) && oldPassword == newPassword ==>
            o == ChangeOutcome(None, Err(Abort(409, SamePasswordDetail))))
      && (Verify(oldPassword, a.password) && oldPassword != newPassword ==>
            o.sent == Some(InvalidateRequest(user.accountId, user.sessionId)))
    ensures o.sent.Some? ==> o.sent.value == InvalidateRequest(user.accountId, user.sessionId)
    ensures o.sent.Some? && reply.status != 200 ==>
      o.result == (if reply.detail.Some? then Err(Abort(reply.status, reply.detail.value))
                   else Err(MissingKey("detail")))
    ensures o.result.Ok? <==> o.sent.Some? && reply.status == 200
    ensures o.result.Ok? ==>
      && oldPassword != newPassword
      && o.result.value.nextId == s.nextId
      && |o.result.value.accounts| == |s.accounts|
      && forall i :: 0 <= i < |s.accounts| ==>
           if s.accounts[i].id == user.accountId then
             o.result.value.accounts[i] == s.accounts[i].(password := Hash(newPassword, salt))
           else o.result.value.accounts[i] == s.accounts[i]
  {
    match First(s.accounts, ById(user.accountId))
    case None => ChangeOutcome(None, Err(NoRow))
    case Some(a) =>
      assert forall b :: b in s.accounts && b.id == user.accountId && Valid(s) ==> a == b by {
        forall b | b in s.accounts && b.id == user.accountId && Valid(s) ensures a == b {
          FirstOfUnique(s, ById(user.accountId), b);
        }
      }
      if !Verify(oldPassword, a.password) then
        ChangeOutcome(None, Err(Abort(422, IncorrectPasswordDetail)))
      else if oldPassword == newPassword then
        ChangeOutcome(None, Err(Abort(409, SamePasswordDetail)))
      else
        var sent := Some(InvalidateRequest(user.accountId, user.sessionId));
        if reply.status != 200 then
          match reply.detail
          case Some(detail) => ChangeOutcome(sent, Err(Abort(reply.status, detail)))
          case None => ChangeOutcome(sent, Err(MissingKey("detail")))
        else
          ChangeOutcome(sent, Ok(SetPassword(s, user.accountId, Hash(newPassword, salt))))
  }

  // ---------------------------------------------------------------------------
  // verify_account
  // ---------------------------------------------------------------------------

  /** The body of a verification request: an account id or a login, and a password. */
  datatype VerifyRequest = VerifyRequest(accountId: Option<int>, login: Option<string>, password: string)

  /** The column the lookup uses: the id when it is truthy, else the login.
      With neither, the query compares `login` with NULL and finds nothing. */
  function LookupKey(request: VerifyRequest): Option<Key>
  {
    if Truthy(request.accountId) then Some(ById(request.accountId.value))
    else if request.login.Some? then Some(ByLogin(request.login.value))
    else None
  }

  /** What the authentication service receives for a verified account. */
  function VerifiedInfo(a: Account): (r: Json)
    ensures r.Keys == {"account_id", "role"}
    ensures r["account_id"] == Int(a.id) && r["role"] == Str(a.role)
  {
    map["account_id" := Int(a.id), "role" := Str(a.role)]
  }

  /** Check credentials for the authentication service: 404 when no account
      matches, 422 when the password does not verify, else its id and role. */
  function VerifyAccount(s: Store, request: VerifyRequest): (r: Result<Json>)
    ensures Truthy(request.accountId) && !HasId(s, request.accountId.value) ==>
      r == Err(Abort(404, AccountNotFoundDetail))
    ensures !Truthy(request.accountId) && request.login.None? ==>
      r == Err(Abort(404, AccountNotFoundDetail))
    ensures !Truthy(request.accountId) && request.login.Some? && !HasLogin(s, request.login.value) ==>
      r == Err(Abort(404, AccountNotFoundDetail))
    ensures forall a :: a in s.accounts && Valid(s) && LookupKey(request).Some? && Matches(a, LookupKey(request).value) ==>
      r == if Verify(request.password, a.password) then Ok(VerifiedInfo(a))
           else Err(Abort(422, IncorrectPasswordDetail))
    ensures r.Ok? ==> exists a :: a in s.accounts && Verify(request.password, a.password) && r.value == VerifiedInfo(a)
  {
    var found := match LookupKey(request)
      case None => None
      case Some(key) => First(s.accounts, key);
    if found.None? then Err(Abort(404, AccountNotFoundDetail))
    else
      var a := found.value;
      assert forall b :: b in s.accounts && Valid(s) && LookupKey(request).Some? && Matches(b, LookupKey(request).value) ==> a == b by {
        forall b | b in s.accounts && Valid(s) && LookupKey(request).Some? && Matches(b, LookupKey(request).value)
          ensures a == b
        {
          FirstOfUnique(s, LookupKey(request).value, b);
        }
      }
      if !Verify(request.password, a.password) then Err(Abort(422, IncorrectPasswordDetail))
      else Ok(VerifiedInfo(a))
  }
}

=== FILE: logic_properties.dfy ===
/** Properties that relate several operations: the table invariant across
    every transition, and the credential round trips the authentication
    service relies on. */
module LogicProperties {
  import opened Errors
  import opened Utils
  import opened Database
  import opened Logic

  /** The number of rows with a given login. */
  function CountLogin(accounts: seq<Account>, login: string): nat
  {
    if accounts == [] then 0
    else (if accounts[0].login == login then 1 else 0) + CountLogin(accounts[1..], login)
  }

  lemma {:induction false} CountLoginAtMostOne(accounts: seq<Account>, login: string)
    requires LoginsUnique(accounts)
    ensures CountLogin(accounts, login) <= 1
    ensures CountLogin(accounts, login) == 1 <==> exists i :: 0 <= i < |accounts| && accounts[i].login == login
  {
    if accounts != [] {
      var rest := accounts[1..];
      assert LoginsUnique(rest) by {
        forall i, j | 0 <= i < j < |rest| ensures rest[i].login != rest[j].login {
          assert rest[i] == accounts[i + 1] && rest[j] == accounts[j + 1];
        }
      }
      CountLoginAtMostOne(rest, login);
      if accounts[0].login == login {
        forall i | 0 <= i < |rest| ensures rest[i].login != login {
          assert rest[i] == accounts[i + 1];
        }
      }
      assert (exists i :: 0 <= i < |accounts| && accounts[i].login == login) <==>
             accounts[0].login == login || exists i :: 0 <= i < |rest| && rest[i].login == login by {
        forall i | 0 < i < |accounts| ensures accounts[i] == rest[i - 1] {}
      }
    }
  }

  /** Registering the same login twice: the second call is a 409 and the
      table holds exactly one row with that login. */
  lemma RegisterTwiceConflicts(s: Store, login: string, password: string, name: string, salt: Salt, now: int,
                               password2: string, name2: string, salt2: Salt, now2: int)
    requires Valid(s) && !HasLogin(s, login)
    ensures RegisterAccount(s, login, password, name, salt, now).Ok?
    ensures var t := RegisterAccount(s, login, password, name, salt, now).value;
      && RegisterAccount(t, login, password2, name2, salt2, now2) == Err(Abort(409, LoginTakenDetail))
      && CountLogin(t.accounts, login) == 1
  {
    var t := RegisterAccount(s, login, password, name, salt, now).value;
    assert t.accounts[|s.accounts|].login == login;
    assert HasLogin(t, login);
    CountLoginAtMostOne(t.accounts, login);
  }

  /** A successful password change keeps the table invariant. */
  lemma ChangePasswordPreservesValid(s: Store, user: CurrentUser, oldPassword: string, newPassword: string,
                                     reply: SessionReply, salt: Salt)
    requires Valid(s)
    requires ChangePassword(s, user, oldPassword, newPassword, reply, salt).result.Ok?
    ensures Valid(ChangePassword(s, user, oldPassword, newPassword, reply, salt).result.value)
  {
  }

  /** The round trip the authentication service depends on: a freshly
      registered login verifies with its password, by login and by the id
      registration assigned, as a `user` account. */
  lemma RegisterThenVerify(s: Store, login: string, password: string, name: string, salt: Salt, now: int,
                           anyId: Option<int>)
    requires Valid(s) && !HasLogin(s, login)
    requires !Truthy(anyId)
    ensures RegisterAccount(s, login, password, name, salt, now).Ok?
    ensures var t := RegisterAccount(s, login, password, name, salt, now).value;
      && VerifyAccount(t, VerifyRequest(anyId, Some(login), password))
           == Ok(map["account_id" := Int(s.nextId), "role" := Str(UserRole)])
      && VerifyAccount(t, VerifyRequest(Some(s.nextId), None, password))
           == Ok(map["account_id" := Int(s.nextId), "role" := Str(UserRole)])
  {
  }

  /** After a successful change the caller's row, found by id, carries the
      hash of the new password. */
  lemma ChangedRowHoldsNewHash(s: Store, user: CurrentUser, oldPassword: string, newPassword: string,
                               reply: SessionReply, salt: Salt)
    requires Valid(s)
    requires ChangePassword(s, user, oldPassword, newPassword, reply, salt).result.Ok?
    ensures var t := ChangePassword(s, user, oldPassword, newPassword, reply, salt).result.value;
      && user.accountId >= 1
      && First(t.accounts, ById(user.accountId)).Some?
      && First(t.accounts, ById(user.accountId)).value.password == Hash(newPassword, salt)
  {
    var t := ChangePassword(s, user, oldPassword, newPassword, reply, salt).result.value;
    ChangePasswordPreservesValid(s, user, oldPassword, newPassword, reply, salt);
    var i :| 0 <= i < |s.accounts| && s.accounts[i].id == user.accountId;
    var a := t.accounts[i];
    assert a == s.accounts[i].(password := Hash(newPassword, salt));
    assert a in t.accounts;
    FirstOfUnique(t, ById(user.accountId), a);
  }

  /** After a successful change the new password verifies for the caller and
      the old one no longer does. */
  lemma ChangePasswordThenVerify(s: Store, user: CurrentUser, oldPassword: string, newPassword: string,
                                 reply: SessionReply, salt: Salt)
    requires Valid(s)
    requires ChangePassword(s, user, oldPassword, newPassword, reply, salt).result.Ok?
    ensures var t := ChangePassword(s, user, oldPassword, newPassword, reply, salt).result.value;
      && VerifyAccount(t, VerifyRequest(Some(user.accountId), None, newPassword)).Ok?
      && VerifyAccount(t, VerifyRequest(Some(user.accountId), None, oldPassword))
           == Err(Abort(422, IncorrectPasswordDetail))
  {
    ChangedRowHoldsNewHash(s, user, oldPassword, newPassword, reply, salt);
    VerifyHash(newPassword, salt);
    VerifyOnlyOwnPassword(oldPassword, newPassword, salt);
    assert LookupKey(VerifyRequest(Some(user.accountId), None, newPassword)) == Some(ById(user.accountId));
    assert LookupKey(VerifyRequest(Some(user.accountId), None, oldPassword)) == Some(ById(user.accountId));
  }

  /** After a reset whose drop succeeded, the configured admin credentials
      verify as the `admin` account with id 1, and nothing else is stored. */
  lemma RecreateThenVerifyAdmin(prior: Store, adminLogin: string, adminPassword: string, salt: Salt, now: int)
    ensures var t := RecreateTables(prior, true, adminLogin, adminPassword, salt, now).value;
      && |t.accounts| == 1
      && VerifyAccount(t, VerifyRequest(None, Some(adminLogin), adminPassword))
           == Ok(map["account_id" := Int(1), "role" := Str(AdminRole)])
  {
  }

  /** A registered account's public profile is its login, the `user` role,
      its name and its registration time. */
  lemma RegisterThenGetInfo(s: Store, login: string, password: string, name: string, salt: Salt, now: int)
    requires Valid(s) && !HasLogin(s, login)
    ensures RegisterAccount(s, login, password, name, salt, now).Ok?
    ensures GetAccountInfo(RegisterAccount(s, login, password, name, salt, now).value, login)
      == Ok(map["login" := Str(login), "role" := Str(UserRole), "name" := Str(name), "register_time" := Int(now)])
  {
  }

  /** A registered caller's profile carries their session fields and the
      login, name and registration time they registered with. */
  lemma RegisterThenMe(s: Store, login: string, password: string, name: string, salt: Salt, now: int,
                       user: CurrentUser)
    requires Valid(s) && !HasLogin(s, login)
    requires user.accountId == s.nextId
    ensures RegisterAccount(s, login, password, name, salt, now).Ok?
    ensures Me(RegisterAccount(s, login, password, name, salt, now).value, user)
      == Ok(JsonifyInfo(user, login, name, now))
  {
  }
}

=== FILE: utils.dfy ===
/** Password hashing, the per-request caller identity and its reconstruction
    from the trusted identity headers (app/utils.py). */
module Utils {
  import opened Errors

  // ---------------------------------------------------------------------------
  // Password hashing
  // ---------------------------------------------------------------------------

  /** The random salt the hashing library draws; randomness becomes an input. */
  type Salt = nat

  /** A stored password hash. Like a bcrypt string it embeds its own salt, so
      verification needs nothing but the hash itself. */
  datatype Hashed = Hashed(salt: Salt, key: seq<int>)

  /** The derived key. Its only role in the model is to be a function of the
      password and salt that is injective in the password for a fixed salt. */
  function DeriveKey(password: string, salt: Salt): seq<int>
  {
    seq(|password|, i requires 0 <= i < |password| => password[i] as int + salt)
  }

  /** `hash_password`: a salted hash of `password`. */
  function Hash(password: string, salt: Salt): (h: Hashed)
    ensures h.salt == salt
  {
    Hashed(salt, DeriveKey(password, salt))
  }

  /** `verify_password`: re-hash the candidate with the salt the stored hash
      carries and compare. */
  predicate Verify(password: string, hashed: Hashed)
  {
    Hash(password, hashed.salt) == hashed
  }

  /** A hash always verifies against the password it was made from. */
  lemma VerifyHash(password: string, salt: Salt)
    ensures Verify(password, Hash(password, salt))
  {
  }

  /** ... and against no other password. */
  lemma VerifyOnlyOwnPassword(candidate: string, password: string, salt: Salt)
    ensures Verify(candidate, Hash(password, salt)) <==> candidate == password
  {
    if Verify(candidate, Hash(password, salt)) {
      var kc, kp := DeriveKey(candidate, salt), DeriveKey(password, salt);
      assert kc == kp;
      assert |candidate| == |password| by {
        assert |kc| == |candidate| && |kp| == |password|;
      }
      forall i | 0 <= i < |candidate|
        ensures candidate[i] == password[i]
      {
        assert kc[i] == kp[i];
      }
    }
  }

  // ---------------------------------------------------------------------------
  // The caller's identity
  // ---------------------------------------------------------------------------

  /** `CurrentUser`: the constructor's parameters are in the source's order,
      and each lands in the field of the same name. */
  datatype CurrentUser = CurrentUser(
    accountId: int,
    role: string,
    sessionId: string,
    client: string,
    loginTime: string)

  /** The eight keys of the `me` profile. */
  const ProfileKeys: set<string> :=
    {"session_id", "role", "account_id", "client", "login_time", "login", "name", "register_time"}

  /** `CurrentUser.jsonify_info`: the session fields of the caller merged with
      the stored profile fields passed in. */
  function JsonifyInfo(user: CurrentUser, login: string, name: string, registerTime: int): (r: Json)
    ensures r.Keys == ProfileKeys && |r| == 8
    ensures r["session_id"] == Str(user.sessionId) && r["role"] == Str(user.role)
    ensures r["account_id"] == Int(user.accountId) && r["client"] == Str(user.client)
    ensures r["login_time"] == Str(user.loginTime)
    ensures r["login"] == Str(login) && r["name"] == Str(name)
    ensures r["register_time"] == Int(registerTime)
  {
    map[
      "session_id" := Str(user.sessionId),
      "role" := Str(user.role),
      "account_id" := Int(user.accountId),
      "client" := Str(user.client),
      "login_time" := Str(user.loginTime),
      "login" := Str(login),
      "name" := Str(name),
      "register_time" := Int(registerTime)
    ]
  }

  // ---------------------------------------------------------------------------
  // Decimal integers, as `int(...)` reads the account-id header
  // ---------------------------------------------------------------------------

  predicate IsDigit(c: char)
  {
    '0' <= c <= '9'
  }

  predicate AllDigits(s: string)
  {
    forall i :: 0 <= i < |s| ==> IsDigit(s[i])
  }

  /** The value of a string of decimal digits, most significant first. */
  function DigitsValue(digits: string): nat
    requires AllDigits(digits)
    decreases |digits|
  {
    if digits == [] then 0
    else DigitsValue(digits[..|digits| - 1]) * 10 + (digits[|digits| - 1] as int - '0' as int)
  }

  /** An integer literal: an optional sign followed by at least one digit. */
  predicate IsIntLiteral(s: string)
  {
    && |s| > 0
    && if s[0] == '+' || s[0] == '-' then |s| > 1 && AllDigits(s[1..]) else AllDigits(s)
  }

  /** Parse an integer literal, or `None` where `int(...)` raises. */
  function ParseInt(s: string): (r: Option<int>)
    ensures r.Some? <==> IsIntLiteral(s)
    ensures r.Some? && s[0] == '-' ==> r.value <= 0
    ensures r.Some? && s[0] != '-' ==> r.value >= 0
  {
    if s == [] then None
    else if s[0] == '+' || s[0] == '-' then
      var digits := s[1..];
      if digits != [] && AllDigits(digits) then
        var magnitude: int := DigitsValue(digits);
        Some(if s[0] == '-' then -magnitude else magnitude)
      else None
    else if AllDigits(s) then Some(DigitsValue(s))
    else None
  }

  function DigitChar(d: nat): char
    requires d < 10
  {
    ('0' as int + d) as char
  }

  /** The shortest decimal spelling of `n`, the partner of `ParseInt`. */
  function FormatNat(n: nat): string
  {
    if n < 10 then [DigitChar(n)] else FormatNat(n / 10) + [DigitChar(n % 10)]
  }

  function FormatInt(n: int): string
  {
    if n < 0 then "-" + FormatNat(-n) else FormatNat(n)
  }

  lemma {:induction false} FormatNatValue(n: nat)
    ensures |FormatNat(n)| > 0 && AllDigits(FormatNat(n))
    ensures DigitsValue(FormatNat(n)) == n
  {
    if n >= 10 {
      FormatNatValue(n / 10);
      var s := FormatNat(n);
      assert s[..|s| - 1] == FormatNat(n / 10);
    }
  }

  /** Reading back a formatted integer gives the integer. */
  lemma ParseFormatInt(n: int)
    ensures ParseInt(FormatInt(n)) == Some(n)
  {
    var t := FormatInt(n);
    if n < 0 {
      var digits := FormatNat(-n);
      FormatNatValue(-n);
      assert t == "-" + digits;
      assert t[0] == '-' && t[1..] == digits;
    } else {
      FormatNatValue(n);
      assert IsDigit(t[0]);
      assert t[0] != '+' && t[0] != '-';
    }
  }

  /** `k` zero digits. */
  function Zeros(k: nat): (z: string)
    ensures |z| == k && AllDigits(z)
  {
    if k == 0 then [] else Zeros(k - 1) + ['0']
  }

  /** Leading zeros do not change the value of a digit string. */
  lemma {:induction false} LeadingZerosValue(k: nat, digits: string)
    requires AllDigits(digits)
    ensures AllDigits(Zeros(k) + digits)
    ensures DigitsValue(Zeros(k) + digits) == DigitsValue(digits)
    decreases k + |digits|
  {
    var t := Zeros(k) + digits;
    assert AllDigits(t) by {
      forall i | 0 <= i < |t| ensures IsDigit(t[i]) {
        if i >= k { assert t[i] == digits[i - k]; }
      }
    }
    if digits == [] {
      if k > 0 {
        assert t == Zeros(k - 1) + ['0'];
        assert t[..|t| - 1] == Zeros(k - 1) + [];
        LeadingZerosValue(k - 1, []);
      }
    } else {
      var init := digits[..|digits| - 1];
      assert t[..|t| - 1] == Zeros(k) + init;
      assert t[|t| - 1] == digits[|digits| - 1];
      LeadingZerosValue(k, init);
    }
  }

  /** An unsigned run of digits reads as its value. */
  lemma ParseDigits(digits: string)
    requires |digits| > 0 && AllDigits(digits)
    ensures ParseInt(digits) == Some(DigitsValue(digits) as int)
  {
    assert IsDigit(digits[0]);
  }

  /** A sign followed by a run of digits reads as the signed value. */
  lemma ParseSignedDigits(sign: char, digits: string)
    requires sign == '+' || sign == '-'
    requires |digits| > 0 && AllDigits(digits)
    ensures ParseInt([sign] + digits) == Some(if sign == '-' then -(DigitsValue(digits) as int) else DigitsValue(digits) as int)
  {
    var t := [sign] + digits;
    assert t[0] == sign && t[1..] == digits;
  }

  /** Every literal `int(...)` accepts in the modelled syntax reads as its
      value: an optional sign, any number of leading zeros, then the digits. */
  lemma ParsePadded(sign: string, k: nat, n: nat)
    requires sign == "" || sign == "+" || sign == "-"
    ensures ParseInt(sign + Zeros(k) + FormatNat(n)) == Some(if sign == "-" then -(n as int) else n as int)
  {
    var digits := Zeros(k) + FormatNat(n);
    FormatNatValue(n);
    LeadingZerosValue(k, FormatNat(n));
    assert sign + Zeros(k) + FormatNat(n) == sign + digits;
    if sign == "" {
      assert sign + digits == digits;
      ParseDigits(digits);
    } else {
      assert sign == [sign[0]];
      ParseSignedDigits(sign[0], digits);
    }
  }

  // ---------------------------------------------------------------------------
  // `get_current_user`
  // ---------------------------------------------------------------------------

  /** Request headers, by exact name. */
  type Headers = map<string, string>

  const AccountIdHeader := "COEVDI_ACCOUNT_ID"
  const SessionIdHeader := "COEVDI_SESSION_ID"
  const RoleHeader := "COEVDI_ACCOUNT_ROLE"
  const LoginTimeHeader := "COEVDI_LOGIN_TIME"
  const ClientHeader := "COEVDI_CLIENT"

  const MissingHeaderDetail := "Missing HEADER"

  /** The account-id header is present and reads as an integer. */
  predicate AccountIdParses(headers: Headers)
  {
    AccountIdHeader in headers && ParseInt(headers[AccountIdHeader]).Some?
  }

  predicate AllHeadersPresent(headers: Headers)
  {
    && AccountIdHeader in headers
    && SessionIdHeader in headers
    && RoleHeader in headers
    && LoginTimeHeader in headers
    && ClientHeader in headers
  }

  /** Headers that identify a caller: all five present, a non-zero integer
      account id and non-empty session id, role, login time and client. */
  predicate IdentifiesCaller(headers: Headers)
  {
    && AllHeadersPresent(headers)
    && ParseInt(headers[AccountIdHeader]).Some?
    && ParseInt(headers[AccountIdHeader]).value != 0
    && headers[SessionIdHeader] != ""
    && headers[RoleHeader] != ""
    && headers[LoginTimeHeader] != ""
    && headers[ClientHeader] != ""
  }

  /** Build the caller's identity from the request headers. */
  function GetCurrentUser(headers: Headers): (r: Result<CurrentUser>)
    // a missing or non-integer account id is a 401
    ensures !AccountIdParses(headers) ==> r == Err(Abort(401, MissingHeaderDetail))
    // the other four headers are indexed directly, in this order, so a
    // missing one is a lookup error rather than a 401
    ensures AccountIdParses(headers) && SessionIdHeader !in headers
      ==> r == Err(MissingKey(SessionIdHeader))
    ensures AccountIdParses(headers) && SessionIdHeader in headers && RoleHeader !in headers
      ==> r == Err(MissingKey(RoleHeader))
    ensures AccountIdParses(headers) && SessionIdHeader in headers && RoleHeader in headers
            && LoginTimeHeader !in headers
      ==> r == Err(MissingKey(LoginTimeHeader))
    ensures AccountIdParses(headers) && SessionIdHeader in headers && RoleHeader in headers
            && LoginTimeHeader in headers && ClientHeader !in headers
      ==> r == Err(MissingKey(ClientHeader))
    // with every header present and parsed, a zero id or an empty value is a 401
    ensures AccountIdParses(headers) && AllHeadersPresent(headers) && !IdentifiesCaller(headers)
      ==> r == Err(Abort(401, MissingHeaderDetail))
    ensures r.Ok? <==> IdentifiesCaller(headers)
    ensures r.Ok? ==>
      && r.value.accountId == ParseInt(headers[AccountIdHeader]).value
      && r.value.sessionId == headers[SessionIdHeader]
      && r.value.role == headers[RoleHeader]
      && r.value.loginTime == headers[LoginTimeHeader]
      && r.value.client == headers[ClientHeader]
  {
    if AccountIdHeader !in headers then Err(Abort(401, MissingHeaderDetail))
    else
      match ParseInt(headers[AccountIdHeader])
      case None => Err(Abort(401, MissingHeaderDetail))
      case Some(accountId) =>
        if SessionIdHeader !in headers then Err(MissingKey(SessionIdHeader))
        else if RoleHeader !in headers then Err(MissingKey(RoleHeader))
        else if LoginTimeHeader !in headers then Err(MissingKey(LoginTimeHeader))
        else if ClientHeader !in headers then Err(MissingKey(ClientHeader))
        else
          var sessionId := headers[SessionIdHeader];
          var role := headers[RoleHeader];
          var loginTime := headers[LoginTimeHeader];
          var client := headers[ClientHeader];
          if accountId == 0 || sessionId == "" || role == "" || loginTime == "" || client == "" then
            Err(Abort(401, MissingHeaderDetail))
          else
            Ok(CurrentUser(accountId, role, sessionId, client, loginTime))
  }

  /** The headers an upstream gateway sends for a caller. */
  function HeadersOf(user: CurrentUser): Headers
  {
    map[
      AccountIdHeader := FormatInt(user.accountId),
      SessionIdHeader := user.sessionId,
      RoleHeader := user.role,
      LoginTimeHeader := user.loginTime,
      ClientHeader := user.client
    ]
  }

  /** Every identity a gateway can describe with non-empty headers and a
      non-zero id is reconstructed exactly. */
  lemma GetCurrentUserRoundTrip(user: CurrentUser)
    requires user.accountId != 0
    requires user.sessionId != "" && user.role != "" && user.loginTime != "" && user.client != ""
    ensures GetCurrentUser(HeadersOf(user)) == Ok(user)
  {
    ParseFormatInt(user.accountId);
    var h := HeadersOf(user);
    assert h[AccountIdHeader] == FormatInt(user.accountId);
    assert IdentifiesCaller(h);
  }
}
